=== FILE: README.md ===
# Checkers rules engine — a Dafny model

This project models the rules engine of a browser checkers game (`checkers.js`).
In `checkers.js`, the engine is interleaved with WebGL drawing and DOM updates.
Its state is three globals:

- **the board**: 8 rows of 4 playable squares, each holding one of five piece codes;
- **the highlight layer `possibleMoves`**: 8×4 marks. Each mark is unset (-1), a
  legal target (`HILIGHT`, 5) or a captured piece waiting to be removed (0);
- **the turn and the selection**: `turn` is a (man, king) pair of codes,
  `selectedIndex` records the selected square and its piece, and `possibleJumps`
  lists the opposing pieces the selection could jump.

The engine's operations are modelled as pure functions over immutable values:

- `Game.NewGame` is the reset.
- `Game.Select` is the selection; it probes diagonals and writes highlights.
- `Game.Commit` is the move commit. In the order of `selectedValidMove` it:
  1. relocates the piece;
  2. marks the jumped piece;
  3. crowns men;
  4. sweeps marked squares;
  5. passes the turn;
  6. clears highlights;
  7. reports the game-over verdict.
- `Game.Click` is the click dispatch. It receives a square, not pixels.

Modules:

- `Pieces`: piece, player and mark codes, ownership, turn switching and crowning.
- `Grid`: the packed 8×4 grid.
- `Census`: piece counts and the game-over verdict.
- `Moves`: the move finder, plus a reference diagonal-move rule on the 8×8 board.
- `Capture`: capture marking, the sweep and promotion.
- `Game`: the state and its operations.
- `Play`: the invariant that every state reached by play keeps, and what one
  click does to such a state.

Several partners tie the operations to independent definitions:

- **Move finder.** It is proved equal to a reference rule. A step goes one row
  forward (or backward, for a king) and one file sideways onto an empty square.
  A jump goes over an adjacent opposing piece onto the empty square beyond it.
  The rule is stated on the physical 8×8 files (`File = 2*col + row%2`), not on
  the packed column offsets.
- **Probe.** `setPossibleMoves` relies on JavaScript's `undefined` reads and a
  caught `TypeError` for off-board squares. It is proved equal to a
  bounds-checked probe.
- **Commit.** From any state reachable by play, a committing click is proved to
  move exactly one piece. It crowns only that piece, removes exactly the jumped
  piece on a jump and nothing on a step, and changes the counts accordingly.
  `Game.Commit` alone promises less, because an arbitrary well-formed state
  may carry a candidate list that did not come from its selection; the
  reachability invariant is what ties the two together.

## Model

| member | source | states |
|---|---|---|
| Pieces.Code | checkers.js:40-44 | the five piece codes lie in 0..4 and only an empty square has code 0 |
| Pieces.CodeInjective | checkers.js:40-44 | the five piece codes are distinct, so the `===` comparisons of codes are comparisons of pieces |
| Pieces.MarkCode | checkers.js:45-69 | a captured mark shares the code of an empty square and nothing else does; an unset mark is -1 |
| Pieces.Switch | checkers.js:445-456 | passing the turn gives the other pair, and every non-empty piece belongs to exactly one of the two pairs |
| Pieces.SwitchTwice | checkers.js:445-456 | switching turns twice gives the original side back |
| Pieces.Crown | checkers.js:572-580 | a piece changes on arrival exactly when it is a man on its own crown row; it then becomes a king of the same colour, and ownership and emptiness are preserved |
| Grid.Fill | checkers.js:258-269 | resetting the highlight layer leaves every square unset |
| Census.Tally | checkers.js:275-291 | the white and black counts add up to the number of occupied squares, which is at most 32 |
| Census.SidesPartition | checkers.js:282-288 | counting white pieces and "every other occupied square" as black splits the occupied squares into two disjoint classes |
| Census.CountZeroIffNoneLeft | checkers.js:309-324 | a side's count is zero exactly when no square holds its man or king |
| Census.GameOver | checkers.js:309-324 | Black wins exactly when White has no piece (checked first); White wins exactly when White has pieces and Black has none; otherwise the game is undecided |
| Census.PieceCounts | checkers.js:275-291 | the nested row/column scan returns exactly the number of white and of black pieces |
| Census.CountPut | checkers.js:275-291 | overwriting one square changes each class count by the difference of the two pieces' membership |
| Moves.ColumnShift | checkers.js:345-354 | the column shift of every row is one column to the right or to the left |
| Moves.ColumnShiftAlternates | checkers.js:345-354 | consecutive rows shift in opposite directions, as the even/odd branches of the click loop set them |
| Moves.RowStep | checkers.js:430-434 | men of each side advance by one row towards the row on which they are crowned |
| Moves.FileParity | checkers.js:344-354 | every packed square is a playable square of the 8x8 board: its file (2*col + row%2, where pieces, highlights and clicks are placed) is in range and has the parity of its row |
| Moves.DiagonalGeometry | checkers.js:345-354 | the packed column offsets of the probes are the true diagonals: the neighbour is one file away, the two candidates lie on opposite sides, and the landing continues the diagonal |
| Moves.ProbeDirection | checkers.js:467-499 | a probe reports only on-board squares, nothing when the neighbour is off the board, and no jump when the landing is off the board |
| Moves.SetPossibleMoves | checkers.js:467-499 | the probe as written, for any offsets, reports only on-board squares: a step onto an empty square one row away, or a jump over a piece not in the mover's pair onto an empty square two rows away |
| Moves.BoundsChecksAgree | checkers.js:467-499 | the probe as written, with undefined reads and the caught exception for a missing row, finds exactly what the bounds-checked probe finds, for both column candidates |
| Moves.Directions | checkers.js:510-524 | a man makes two probes, both forward; a king makes four, the two backward ones first; within a row step the left candidate is probed first |
| Moves.IsKing | checkers.js:514 | the selected piece probes like a king exactly when it belongs to the side to move and is not its man, i.e. it is the second code of the turn pair |
| Moves.SelectionMarks | checkers.js:429-439 | a selection resets the layer: the origin is highlighted and every other square is highlighted or unset, never marked captured |
| Moves.SelectionJumps | checkers.js:512-523 | a selection records at most four capture candidates, all on the board; Moves.JumpRecorded gives the converse |
| Moves.HighlightAll | checkers.js:480-493 | a square ends highlighted exactly when it already was or some probe reported it; all other marks are untouched |
| Moves.Overs | checkers.js:483-487 | the recorded candidates are exactly the jumped-over squares of the jump probes, at most one per probe, all on the board |
| Moves.ProbeSound | checkers.js:467-499 | every probed target is a diagonal step onto an empty square, or a jump over an opposing piece onto an empty square, in the probe's row step |
| Moves.ProbeComplete | checkers.js:510-524 | every such step or jump in a row step is found by the left or the right probe of that step |
| Moves.StepFound | checkers.js:480-481 | a diagonal step onto an empty square is found by the left or the right probe of its row step |
| Moves.JumpFound | checkers.js:483-493 | a jump over an opposing piece onto an empty square is found by the probe whose neighbour is the jumped piece: that probe reports exactly this jump, jumped square and landing |
| Moves.ProbedIsLegal | checkers.js:510-524 | every square a selection's probes report is a legal destination of the selected piece |
| Moves.LegalIsProbed | checkers.js:510-524 | every legal destination in an allowed row step (forward, and backward for a king) is reported by one of the selection's probes |
| Moves.ProbedIffLegal | checkers.js:510-524 | a square is reported by some probe of the selection exactly when it is a legal destination |
| Moves.SelectionHighlights | checkers.js:425-440 | after a selection, a square is highlighted exactly when it is the origin or a legal destination of the selected piece; nothing is marked captured |
| Moves.ProbeKinds | checkers.js:467-499 | a step probe reports a one-row diagonal step and a jump probe a two-row capture |
| Moves.JumpProbeShape | checkers.js:483-493 | a jump probe's jumped square is the diagonal neighbour and holds a piece not in the mover's pair; its landing is the square beyond |
| Moves.JumpRecorded | checkers.js:483-487 | the piece that any capture allowed to the selected piece goes over (forward, or backward for a king) is recorded as a candidate, because every jump probe pushes its neighbour |
| Moves.SelectionJumpsAdjacent | checkers.js:510-524 | a selection records at most four capture candidates; each is an opposing piece diagonally next to the origin, and every piece an allowed capture goes over is among them |
| Capture.FirstCaptured | checkers.js:532-552 | the scan picks the first candidate that still holds a piece, lies within one row and one column of the destination and is not on its row; it picks none exactly when no candidate passes |
| Capture.MarkCaptured | checkers.js:537-550 | the scan writes the captured code on the first candidate that passes the test and stops there (the `break`): the only square whose mark changes is that first passing candidate, it is marked captured, and with no passing candidate the layer is unchanged |
| Capture.StepMisses | checkers.js:541-544 | a candidate next to the origin and a step destination lie on the same row or two rows apart, so the candidate fails the test |
| Capture.EarlierJumpMisses | checkers.js:516-523 | a candidate of a probe made before a jump probe (backward before forward, left before right) is at least two rows or two columns from that probe's landing |
| Capture.StepCapturesNothing | checkers.js:532-552 | after a step, no recorded candidate passes the test |
| Capture.JumpCapturesOver | checkers.js:532-552 | after a jump, the scan stops at the piece that jump went over |
| Capture.Sweep | checkers.js:558-566 | a square is emptied exactly when it is marked captured; every other square keeps its piece |
| Capture.SweepSingle | checkers.js:558-566 | with exactly one square marked captured, the sweep empties that square and nothing else |
| Capture.SweepNone | checkers.js:558-566 | with no square marked captured, the sweep leaves the board unchanged |
| Capture.PromoteColumn | checkers.js:573-579 | one column of the scan crowns a black man on row 0, or else a white man on row 7, and changes no other square |
| Capture.PromoteFrom | checkers.js:573-579 | the scan from a column on leaves earlier columns and rows 1-6 alone and applies the per-column rule to every later column |
| Capture.Promote | checkers.js:572-580 | rows 1-6 are untouched; every black man on row 0 is crowned; a white man on row 7 is crowned only when row 0 of its column did not hold a black man |
| Capture.PromoteSettles | checkers.js:572-580 | without a black man on row 0 above a white man on row 7 in the same column, one scan crowns every waiting man and a second scan changes nothing |
| Capture.DelayedWhiteCrowning | checkers.js:572-580 | with such a pair, the white man survives the first scan uncrowned and is crowned by the second, so the scan is not idempotent |
| Capture.PromoteAfterMoveAt | checkers.js:404-408 | square by square, after one piece moves on a settled board, the scan changes at most the destination, crowning a man that reached its crown row |
| Capture.PromoteAfterMove | checkers.js:404-408 | on a board with no man waiting on its crown row, after one piece moves, the scan crowns at most that piece, and only on its crown row |
| Capture.PromoteKeepsCounts | checkers.js:572-580 | crowning changes no side's piece count |
| Capture.PromoteColumnKeepsCounts | checkers.js:573-579 | one column of crowning keeps every count |
| Capture.CaptureIsExact | checkers.js:532-552 | after a jump, the capture scan over the selection's candidates picks exactly the jumped piece; after a step it picks none |
| Game.StartBoard | checkers.js:48-57 | the initial layout is three rows of white men, two empty rows and three rows of black men |
| Game.StartCensus | checkers.js:48-57 | the initial layout has twelve pieces per side |
| Game.Initial | checkers.js:48-73 | the initial globals are exactly the state a reset produces (the standard layout, every mark unset, White to move), with nothing selected and no capture candidates |
| Game.NewGame | checkers.js:235-253 | the reset restores the layout, clears every highlight, gives White the move, and leaves a 12-12 census with the game undecided |
| Game.Select | checkers.js:425-440 | selecting leaves the board and the turn alone, records the square and piece, and highlights the origin and exactly its legal destinations. The capture candidates are exactly the pieces the allowed captures go over: each is an adjacent opposing piece, and every such jumped piece is recorded |
| Game.Commit | checkers.js:403-413 | a commit passes the turn, clears every highlight, empties the origin, and reports the game-over verdict of the new board |
| Game.Click | checkers.js:356-370 | a click on a piece of the side to move is exactly a selection of that square (new highlights and candidates, board and turn untouched), tested before the highlight; a click on a highlighted square with a selection is exactly the commit to it; any other click changes nothing |
| Play.InitialReachable | checkers.js:48-73 | the initial state satisfies the play invariant |
| Play.NewGameReachable | checkers.js:235-253 | a reset state satisfies the play invariant |
| Play.PendingTarget | checkers.js:425-440 | on a pending selection, every highlighted square other than the origin is the target of one of its probes |
| Play.CommitBoard | checkers.js:403-413 | on a pending selection, the committed board is the moved and crowned piece, minus the jumped piece on a jump |
| Play.ClickCommits | checkers.js:356-370 | in a reachable state, a click on a highlighted square without a piece of the mover is a commit of a pending selection |
| Play.SettledAfterCapture | checkers.js:558-566 | removing a piece keeps every man off its crown row |
| Play.MoveCells | checkers.js:403-408 | after the move, the crowning and the removal of one piece, the origin and the removed square are empty, the destination holds the crowned piece, and every other square is as before |
| Play.MoveCount | checkers.js:403-413 | moving and crowning keep every count; removing a piece lowers the counts of its classes by one |
| Play.CommitMove | checkers.js:403-413 | the square a commit moves to is the target of one probe, and the move is a legal destination of the selected piece, reached by a step (one row) or by a jump (two rows) over the captured piece |
| Play.ClickBoard | checkers.js:356-413 | a committing click's board is the origin emptied, the recorded piece crowned on the destination and the jumped piece removed, with no man left waiting on its crown row |
| Play.ClickMove | checkers.js:356-413 | a committing click empties the origin, puts the recorded (possibly crowned) piece on the destination, removes exactly the jumped piece on a jump and nothing on a step, and leaves the state reachable |
| Play.ClickCensus | checkers.js:403-413 | a move keeps the mover's count, and lowers the opponent's count and the occupied count by one exactly on a jump |
| Play.ClickPreservesReachable | checkers.js:356-370 | every click keeps a reachable state reachable |

The invariant `Play.Reachable` has three parts:

- the state is well formed;
- no man waits uncrowned on its crown row;
- either nothing is highlighted, or a selection is pending.

A selection is pending when the selected piece belongs to the side to move,
still stands on its square, and the highlights and candidates are exactly those
its selection produced.

Notes on how the model follows the code:

- **Stale selection.** A commit and a reset leave `selectedIndex` and
  `possibleJumps` as they were: neither a commit nor a reset clears them. Only
  the next selection replaces them (`selectedValidPiece` resets
  `selectedIndex` and `checkPossibleMoves` resets `possibleJumps`). The model
  keeps them stale in the same way, which is harmless because the highlights
  are cleared.
- **Commit with nothing selected.** If a highlighted square is clicked before
  any selection, `selectedIndex` is empty and `selectedValidMove` throws at the
  assignment into `board[undefined]` (checkers.js:404) before any state
  changes. The model treats that click as changing nothing. The play
  invariant shows it cannot happen.
- **Reselection wins.** In the dispatch, a piece of the side to move is checked
  before the highlight.
- **Crowning clash.** The `else if` in the crowning scan makes it
  non-idempotent when a column holds a black man on row 0 and a white man on
  row 7 (`Capture.DelayedWhiteCrowning`). The play invariant shows this pair
  never arises in play, so the commit crowns exactly the moved piece when it
  should (`Capture.PromoteAfterMove`).

## Left out

- WebGL set-up, shaders, buffers, the render loop and the drawing of squares,
  pieces and highlights: graphics output only.
- `circle`: floating-point geometry for drawing only.
- Mapping a click's pixel position to a square (the float bounds in `onClick`
  and `getSelectedSquare`). The model receives the square directly.
  - A click exactly on the shared corner of two diagonally adjacent squares can
    match both under the inclusive bounds. This is not modelled, because it depends on floating
    point.
  - The row loop is not stopped after a match, since its `gameOver` stays false.
    This only matters for such corner clicks.
- `setStatusText` and all DOM and event-listener wiring: UI side effects. Of
  `checkGameOver`, only its verdict is kept, as `Reply.outcome`.
- The `gameOver` flag passed into `selectedValidMove`/`selectedValidPiece`: it
  is a by-value parameter whose assignment never reaches the caller, so it has
  no effect on the engine.
- The `console.log` in the probe's catch block: logging only.

=== FILE: capture.dfy ===
/** Applying a chosen move: marking the jumped piece, sweeping it off the
    board, and crowning men on the back rows. */
module Capture {
  import opened Options
  import opened Grid
  import opened Pieces
  import opened Census
  import opened Moves

  /** The test checkForJumpedPieces applies to one recorded candidate once
      the piece has moved to dest: the candidate still holds a piece, is at
      most one row and one column away from dest, and is not on dest's row. */
  predicate Captures(b: seq<seq<Piece>>, cand: Cell, dest: Cell)
    requires IsGrid(b)
  {
    && OnBoard(cand)
    && At(b, cand) != Empty
    && Abs(cand.row - dest.row) < 2
    && Abs(cand.col - dest.col) < 2
    && cand.row != dest.row
  }

  /** checkForJumpedPieces: the scan over the recorded candidates stops at
      the first one that passes the test. */
  function FirstCaptured(b: seq<seq<Piece>>, js: seq<Cell>, dest: Cell): (r: Option<Cell>)
    requires IsGrid(b) && forall k :: 0 <= k < |js| ==> OnBoard(js[k])
    ensures r.Some? ==>
      exists k :: && 0 <= k < |js| && js[k] == r.value && Captures(b, js[k], dest)
                  && forall i :: 0 <= i < k ==> !Captures(b, js[i], dest)
    ensures r.None? <==> forall k :: 0 <= k < |js| ==> !Captures(b, js[k], dest)
    decreases |js|
  {
    if |js| == 0 then None
    else if Captures(b, js[0], dest) then Some(js[0])
    else
      var rest := FirstCaptured(b, js[1..], dest);
      assert forall k :: 1 <= k < |js| ==> js[1..][k - 1] == js[k];
      rest
  }

  /** The mark checkForJumpedPieces leaves: the code of an empty square on
      the first candidate that passes, nothing otherwise. */
  function MarkCaptured(b: seq<seq<Piece>>, m: seq<seq<Mark>>, js: seq<Cell>, dest: Cell): (r: seq<seq<Mark>>)
    requires IsGrid(b) && IsGrid(m) && forall k :: 0 <= k < |js| ==> OnBoard(js[k])
    ensures IsGrid(r)
    ensures forall c :: OnBoard(c) && At(r, c) != At(m, c) ==>
      At(r, c) == Captured && c in js && Captures(b, c, dest)
    ensures (forall k :: 0 <= k < |js| ==> !Captures(b, js[k], dest)) ==> r == m
    ensures (exists k :: 0 <= k < |js| && Captures(b, js[k], dest)) ==>
      exists c :: c in js && Captures(b, c, dest) && At(r, c) == Captured
    ensures forall c :: OnBoard(c) && At(r, c) != At(m, c) ==> FirstCaptured(b, js, dest) == Some(c)
    ensures FirstCaptured(b, js, dest).Some? ==> At(r, FirstCaptured(b, js, dest).value) == Captured
  {
    match FirstCaptured(b, js, dest)
    case None => m
    case Some(c) => Put(m, c, Captured)
  }

  /** removeJumpedPieces: every square marked captured is emptied. */
  function Sweep(b: seq<seq<Piece>>, m: seq<seq<Mark>>): (r: seq<seq<Piece>>)
    requires IsGrid(b) && IsGrid(m)
    ensures IsGrid(r)
    ensures forall c :: OnBoard(c) ==> At(r, c) == (if At(m, c) == Captured then Empty else At(b, c))
  {
    seq(Rows, i requires 0 <= i < Rows =>
      seq(Cols, j requires 0 <= j < Cols => if m[i][j] == Captured then Empty else b[i][j]))
  }

  /** With a single captured mark the sweep empties just that square. */
  lemma SweepSingle(b: seq<seq<Piece>>, m: seq<seq<Mark>>, x: Cell)
    requires IsGrid(b) && IsGrid(m) && OnBoard(x)
    requires forall c :: OnBoard(c) ==> (At(m, c) == Captured <==> c == x)
    ensures Sweep(b, m) == Put(b, x, Empty)
  {
    Extensionality(Sweep(b, m), Put(b, x, Empty));
  }

  /** With no captured mark the sweep leaves the board as it is. */
  lemma SweepNone(b: seq<seq<Piece>>, m: seq<seq<Mark>>)
    requires IsGrid(b) && IsGrid(m)
    requires forall c :: OnBoard(c) ==> At(m, c) != Captured
    ensures Sweep(b, m) == b
  {
    Extensionality(Sweep(b, m), b);
  }

  // Promotion

  /** One iteration of checkForPossibleKings: a black man on row 0 is
      crowned; only otherwise is a white man on row 7 of that column. */
  function PromoteColumn(b: seq<seq<Piece>>, i: int): (r: seq<seq<Piece>>)
    requires IsGrid(b) && 0 <= i < Cols
    ensures IsGrid(r)
    ensures forall c :: OnBoard(c) && (c.col != i || (c.row != 0 && c.row != Rows - 1)) ==>
      At(r, c) == At(b, c)
    ensures At(r, Cell(0, i)) == (if At(b, Cell(0, i)) == BlackMan then BlackKing else At(b, Cell(0, i)))
    ensures At(r, Cell(Rows - 1, i)) ==
      (if At(b, Cell(0, i)) != BlackMan && At(b, Cell(Rows - 1, i)) == WhiteMan
       then WhiteKing else At(b, Cell(Rows - 1, i)))
  {
    if At(b, Cell(0, i)) == BlackMan then Put(b, Cell(0, i), BlackKing)
    else if At(b, Cell(Rows - 1, i)) == WhiteMan then Put(b, Cell(Rows - 1, i), WhiteKing)
    else b
  }

  /** The column loop of checkForPossibleKings from column i on: earlier
      columns and the middle rows are untouched, and each remaining column
      ends up as its single iteration leaves it. */
  function PromoteFrom(b: seq<seq<Piece>>, i: nat): (r: seq<seq<Piece>>)
    requires IsGrid(b) && i <= Cols
    ensures IsGrid(r)
    ensures forall c :: OnBoard(c) && (c.col < i || (c.row != 0 && c.row != Rows - 1)) ==>
      At(r, c) == At(b, c)
    ensures forall k :: i <= k < Cols ==>
      At(r, Cell(0, k)) == (if At(b, Cell(0, k)) == BlackMan then BlackKing else At(b, Cell(0, k)))
    ensures forall k :: i <= k < Cols ==>
      At(r, Cell(Rows - 1, k)) ==
        (if At(b, Cell(0, k)) != BlackMan && At(b, Cell(Rows - 1, k)) == WhiteMan
         then WhiteKing else At(b, Cell(Rows - 1, k)))
    decreases Cols - i
  {
    if i == Cols then b else PromoteFrom(PromoteColumn(b, i), i + 1)
  }

  /** checkForPossibleKings: rows 1-6 are untouched; every black man on row
      0 becomes a black king; a white man on row 7 becomes a white king only
      when row 0 of its column did not hold a black man. */
  function Promote(b: seq<seq<Piece>>): (r: seq<seq<Piece>>)
    requires IsGrid(b)
    ensures IsGrid(r)
    ensures forall c :: OnBoard(c) && c.row != 0 && c.row != Rows - 1 ==> At(r, c) == At(b, c)
    ensures forall k :: 0 <= k < Cols ==>
      At(r, Cell(0, k)) == (if At(b, Cell(0, k)) == BlackMan then BlackKing else At(b, Cell(0, k)))
    ensures forall k :: 0 <= k < Cols ==>
      At(r, Cell(Rows - 1, k)) ==
        (if At(b, Cell(0, k)) != BlackMan && At(b, Cell(Rows - 1, k)) == WhiteMan
         then WhiteKing else At(b, Cell(Rows - 1, k)))
  {
    PromoteFrom(b, 0)
  }

  /** No man waits on the row where it should have been crowned. */
  predicate Settled(b: seq<seq<Piece>>)
    requires IsGrid(b)
  {
    forall k :: 0 <= k < Cols ==>
      At(b, Cell(0, k)) != BlackMan && At(b, Cell(Rows - 1, k)) != WhiteMan
  }

  /** No column has a black man on row 0 and a white man on row 7 at once:
      the one case where the else-branch of the scan is skipped. */
  predicate NoCrowningClash(b: seq<seq<Piece>>)
    requires IsGrid(b)
  {
    forall k :: 0 <= k < Cols ==>
      !(At(b, Cell(0, k)) == BlackMan && At(b, Cell(Rows - 1, k)) == WhiteMan)
  }

  /** Without a clash, one scan crowns every man on its crown row, and a
      second scan changes nothing. */
  lemma PromoteSettles(b: seq<seq<Piece>>)
    requires IsGrid(b) && NoCrowningClash(b)
    ensures Settled(Promote(b))
    ensures Promote(Promote(b)) == Promote(b)
  {
    var p := Promote(b);
    Extensionality(Promote(p), p);
  }

  /** With a clash the scan is not idempotent: a white man on row 7 under a
      black man on row 0 is crowned only by the following scan. */
  lemma DelayedWhiteCrowning()
    ensures var b := Put(Put(Fill(Empty), Cell(0, 0), BlackMan), Cell(Rows - 1, 0), WhiteMan);
      && At(Promote(b), Cell(Rows - 1, 0)) == WhiteMan
      && At(Promote(Promote(b)), Cell(Rows - 1, 0)) == WhiteKing
      && Promote(Promote(b)) != Promote(b)
  {
    var b := Put(Put(Fill(Empty), Cell(0, 0), BlackMan), Cell(Rows - 1, 0), WhiteMan);
    assert At(b, Cell(0, 0)) == BlackMan;
    assert At(Promote(b), Cell(0, 0)) == BlackKing;
    assert At(Promote(Promote(b)), Cell(Rows - 1, 0)) == WhiteKing;
  }

  /** Square by square: on a settled board, after one piece moves from o
      to dest, the scan leaves every square but dest alone and crowns the
      piece on dest if it is a man on its crown row. */
  lemma PromoteAfterMoveAt(b: seq<seq<Piece>>, o: Cell, dest: Cell, kind: Piece, c: Cell)
    requires IsGrid(b) && Settled(b) && OnBoard(o) && OnBoard(dest) && o != dest && OnBoard(c)
    ensures var moved := Put(Put(b, o, Empty), dest, kind);
      At(Promote(moved), c) == At(Put(moved, dest, Crown(kind, dest.row)), c)
  {
    var moved := Put(Put(b, o, Empty), dest, kind);
    var top, bottom := Cell(0, c.col), Cell(Rows - 1, c.col);
    assert At(moved, top) != BlackMan || top == dest;
    assert At(moved, bottom) != WhiteMan || bottom == dest;
    if c.row == 0 {
      assert c == top;
    } else if c.row == Rows - 1 {
      assert c == bottom;
    }
  }

  /** On a settled board, after one piece moves from o to dest, the scan
      crowns at most the moved piece and leaves the board settled. */
  lemma PromoteAfterMove(b: seq<seq<Piece>>, o: Cell, dest: Cell, kind: Piece)
    requires IsGrid(b) && Settled(b) && OnBoard(o) && OnBoard(dest) && o != dest
    ensures var moved := Put(Put(b, o, Empty), dest, kind);
      && Promote(moved) == Put(moved, dest, Crown(kind, dest.row))
      && Settled(Promote(moved))
  {
    var moved := Put(Put(b, o, Empty), dest, kind);
    var expected := Put(moved, dest, Crown(kind, dest.row));
    forall c | OnBoard(c)
      ensures At(Promote(moved), c) == At(expected, c)
    {
      PromoteAfterMoveAt(b, o, dest, kind, c);
    }
    Extensionality(Promote(moved), expected);
  }

  /** One column of the scan keeps every count: a crowned man stays in
      every class it was in. */
  lemma PromoteColumnKeepsCounts(b: seq<seq<Piece>>, i: int, k: Class)
    requires IsGrid(b) && 0 <= i < Cols
    ensures Count(PromoteColumn(b, i), k) == Count(b, k)
  {
    var c0, c7 := Cell(0, i), Cell(Rows - 1, i);
    if At(b, c0) == BlackMan {
      CountPut(b, c0, BlackKing, k);
    } else if At(b, c7) == WhiteMan {
      CountPut(b, c7, WhiteKing, k);
    }
  }

  lemma {:induction false} PromoteFromKeepsCounts(b: seq<seq<Piece>>, i: nat, k: Class)
    requires IsGrid(b) && i <= Cols
    ensures Count(PromoteFrom(b, i), k) == Count(b, k)
    decreases Cols - i
  {
    if i < Cols {
      PromoteColumnKeepsCounts(b, i, k);
      PromoteFromKeepsCounts(PromoteColumn(b, i), i + 1, k);
    }
  }

  /** Crowning changes no census: every count is the same before and after. */
  lemma PromoteKeepsCounts(b: seq<seq<Piece>>, k: Class)
    requires IsGrid(b)
    ensures Count(Promote(b), k) == Count(b, k)
  {
    PromoteFromKeepsCounts(b, 0, k);
  }

  // Exactness of the capture scan

  /** When the k-th probe is a jump whose candidate passes and no earlier
      jump candidate does, the scan stops at the k-th probe's candidate. */
  lemma {:induction false} FirstCapturedOvers(b: seq<seq<Piece>>, ps: seq<Probe>, dest: Cell, k: int)
    requires IsGrid(b) && forall i {:trigger ps[i]} :: 0 <= i < |ps| ==> Fits(ps[i])
    requires 0 <= k < |ps| && ps[k].Jump? && Captures(b, ps[k].over, dest)
    requires forall i :: 0 <= i < k && ps[i].Jump? ==> !Captures(b, ps[i].over, dest)
    ensures FirstCaptured(b, Overs(ps), dest) == Some(ps[k].over)
    decreases k
  {
    var rest := Overs(ps[1..]);
    if ps[0].Jump? {
      assert Overs(ps) == [ps[0].over] + rest;
      assert Overs(ps)[0] == ps[0].over;
      if k > 0 {
        assert Overs(ps)[1..] == rest;
        FirstCapturedOvers(b, ps[1..], dest, k - 1);
      }
    } else {
      assert Overs(ps) == rest;
      FirstCapturedOvers(b, ps[1..], dest, k - 1);
    }
  }

  /** When no jump candidate passes, the scan marks nothing. */
  lemma NoCaptureOvers(b: seq<seq<Piece>>, ps: seq<Probe>, dest: Cell)
    requires IsGrid(b) && forall i {:trigger ps[i]} :: 0 <= i < |ps| ==> Fits(ps[i])
    requires forall i :: 0 <= i < |ps| && ps[i].Jump? ==> !Captures(b, ps[i].over, dest)
    ensures FirstCaptured(b, Overs(ps), dest) == None
  {
    var js := Overs(ps);
    forall j | 0 <= j < |js|
      ensures !Captures(b, js[j], dest)
    {
      assert js[j] in js;
    }
  }

  /** A candidate next to the origin never passes the test for a step
      destination: the two lie on the same row or two rows apart. */
  lemma StepMisses(o: Cell, di: Dir, dk: Dir)
    requires (di.dr == 1 || di.dr == -1) && (dk.dr == 1 || dk.dr == -1)
    ensures var x, d := Adjacent(o, di), Adjacent(o, dk);
      x.row == d.row || Abs(x.row - d.row) >= 2
  {
  }

  /** A candidate of a probe made before the jump probe dk (backward before
      forward, left before right) is too far from dk's landing to pass the
      test. */
  lemma EarlierJumpMisses(o: Cell, di: Dir, dk: Dir)
    requires (di.dr == 1 || di.dr == -1) && (dk.dr == 1 || dk.dr == -1)
    requires di.dr != dk.dr || (di.left && !dk.left)
    ensures var x, d := Adjacent(o, di), Landing(o, dk);
      Abs(x.row - d.row) >= 2 || Abs(x.col - d.col) >= 2
  {
  }

  /** After a step no recorded candidate passes the test. */
  lemma StepCapturesNothing(b: seq<seq<Piece>>, pl: Player, o: Cell, k: int, kind: Piece)
    requires IsGrid(b) && OnBoard(o)
    requires 0 <= k < |Probes(b, pl, o)| && Probes(b, pl, o)[k].Step?
    ensures var dest := Probes(b, pl, o)[k].to;
      var moved := Put(Put(b, o, Empty), dest, kind);
      FirstCaptured(moved, SelectionJumps(b, pl, o), dest) == None
  {
    var ps := Probes(b, pl, o);
    var ds := Directions(pl, IsKing(b, pl, o));
    var dest := ps[k].to;
    var moved := Put(Put(b, o, Empty), dest, kind);
    assert dest == Adjacent(o, ds[k]);
    forall i | 0 <= i < |ps| && ps[i].Jump?
      ensures !Captures(moved, ps[i].over, dest)
    {
      JumpProbeShape(b, pl, o, ds[i]);
      StepMisses(o, ds[i], ds[k]);
    }
    NoCaptureOvers(moved, ps, dest);
  }

  /** After the jump of the k-th probe, the scan picks the piece it jumped
      over. */
  lemma JumpCapturesOver(b: seq<seq<Piece>>, pl: Player, o: Cell, k: int, kind: Piece)
    requires IsGrid(b) && OnBoard(o)
    requires 0 <= k < |Probes(b, pl, o)| && Probes(b, pl, o)[k].Jump?
    ensures var p := Probes(b, pl, o)[k];
      var moved := Put(Put(b, o, Empty), p.to, kind);
      FirstCaptured(moved, SelectionJumps(b, pl, o), p.to) == Some(p.over)
  {
    var ps := Probes(b, pl, o);
    var ds := Directions(pl, IsKing(b, pl, o));
    var p := ps[k];
    var dest := p.to;
    var moved := Put(Put(b, o, Empty), dest, kind);
    JumpProbeShape(b, pl, o, ds[k]);
    assert p.over != o && p.over != dest;
    assert Captures(moved, p.over, dest);
    forall i | 0 <= i < k && ps[i].Jump?
      ensures !Captures(moved, ps[i].over, dest)
    {
      JumpProbeShape(b, pl, o, ds[i]);
      EarlierJumpMisses(o, ds[i], ds[k]);
    }
    FirstCapturedOvers(moved, ps, dest, k);
  }

  /** Committing to the target of the k-th probe of a selection: the scan
      over the recorded candidates, on the board after the piece moved,
      picks the piece that probe jumped over, and nothing for a simple
      step. This is what the push order and the early break guarantee. */
  lemma CaptureIsExact(b: seq<seq<Piece>>, pl: Player, o: Cell, k: int, kind: Piece)
    requires IsGrid(b) && OnBoard(o)
    requires 0 <= k < |Probes(b, pl, o)| && Probes(b, pl, o)[k] != NoMove
    ensures var p := Probes(b, pl, o)[k];
      var dest := Target(p).value;
      var moved := Put(Put(b, o, Empty), dest, kind);
      FirstCaptured(moved, SelectionJumps(b, pl, o), dest) == (if p.Jump? then Some(p.over) else None)
  {
    if Probes(b, pl, o)[k].Step? {
      StepCapturesNothing(b, pl, o, k, kind);
    } else {
      JumpCapturesOver(b, pl, o, k, kind);
    }
  }
}

=== FILE: census.dfy ===
/** The piece census and the game-over verdict derived from it. */
module Census {
  import opened Grid
  import opened Pieces

  /** What a census counts: the pieces of one side, or every piece. */
  datatype Class = Side(pl: Player) | Occupied

  predicate InClass(p: Piece, k: Class) {
    match k
    case Side(pl) => Owns(pl, p)
    case Occupied => p != Empty
  }

  function Ind(p: Piece, k: Class): nat {
    if InClass(p, k) then 1 else 0
  }

  /** Pieces of class k in a row (reference definition, by prefix). */
  function CountRow(row: seq<Piece>, k: Class): (n: nat)
    ensures n <= |row|
  {
    if |row| == 0 then 0 else CountRow(row[..|row| - 1], k) + Ind(row[|row| - 1], k)
  }

  /** Pieces of class k on a board (reference definition, by prefix of rows). */
  function Count(b: seq<seq<Piece>>, k: Class): nat {
    if |b| == 0 then 0 else Count(b[..|b| - 1], k) + CountRow(b[|b| - 1], k)
  }

  /** No piece of the player is left anywhere on the board. */
  ghost predicate NoneLeft(b: seq<seq<Piece>>, pl: Player)
    requires IsGrid(b)
  {
    forall c :: OnBoard(c) ==> !Owns(pl, At(b, c))
  }

  /** The result of a game-over check. */
  datatype Outcome = Undetermined | Winner(side: Player)

  lemma {:induction false} RowSidesPartition(row: seq<Piece>)
    ensures CountRow(row, Side(White)) + CountRow(row, Side(Black)) == CountRow(row, Occupied)
    decreases |row|
  {
    if |row| > 0 {
      RowSidesPartition(row[..|row| - 1]);
    }
  }

  lemma {:induction false} SidesPartition(b: seq<seq<Piece>>)
    requires forall r :: 0 <= r < |b| ==> |b[r]| == Cols
    ensures Count(b, Side(White)) + Count(b, Side(Black)) == Count(b, Occupied)
    ensures Count(b, Occupied) <= Cols * |b|
    decreases |b|
  {
    if |b| > 0 {
      SidesPartition(b[..|b| - 1]);
      RowSidesPartition(b[|b| - 1]);
    }
  }

  /** getPieceCounts as a pair: the two sides together account for every
      occupied square, and there are at most 32 of those. */
  function Tally(b: seq<seq<Piece>>): (r: (nat, nat))
    requires IsGrid(b)
    ensures r.0 + r.1 == Count(b, Occupied) <= Rows * Cols
    ensures r.0 == Count(b, Side(White)) && r.1 == Count(b, Side(Black))
  {
    SidesPartition(b);
    (Count(b, Side(White)), Count(b, Side(Black)))
  }

  lemma {:induction false} RowCountZero(row: seq<Piece>, k: Class)
    ensures CountRow(row, k) == 0 <==> forall i :: 0 <= i < |row| ==> !InClass(row[i], k)
    decreases |row|
  {
    if |row| > 0 {
      var n := |row| - 1;
      RowCountZero(row[..n], k);
      assert forall i :: 0 <= i < n ==> row[..n][i] == row[i];
    }
  }

  lemma {:induction false} BoardCountZero(b: seq<seq<Piece>>, k: Class)
    ensures Count(b, k) == 0 <==>
      forall r, i :: 0 <= r < |b| && 0 <= i < |b[r]| ==> !InClass(b[r][i], k)
    decreases |b|
  {
    if |b| > 0 {
      var n := |b| - 1;
      BoardCountZero(b[..n], k);
      RowCountZero(b[n], k);
      assert forall r :: 0 <= r < n ==> b[..n][r] == b[r];
    }
  }

  /** A side's count is zero exactly when none of its pieces is on the board. */
  lemma CountZeroIffNoneLeft(b: seq<seq<Piece>>, pl: Player)
    requires IsGrid(b)
    ensures Count(b, Side(pl)) == 0 <==> NoneLeft(b, pl)
  {
    BoardCountZero(b, Side(pl));
    if !NoneLeft(b, pl) {
      var c :| OnBoard(c) && Owns(pl, At(b, c));
      assert InClass(b[c.row][c.col], Side(pl));
    } else {
      forall r, i | 0 <= r < |b| && 0 <= i < |b[r]|
        ensures !InClass(b[r][i], Side(pl))
      {
        assert !Owns(pl, At(b, Cell(r, i)));
      }
    }
  }

  /** A row filled with one piece counts that piece once per square. */
  lemma {:induction false} CountUniformRow(row: seq<Piece>, p: Piece, k: Class)
    requires forall i :: 0 <= i < |row| ==> row[i] == p
    ensures CountRow(row, k) == |row| * Ind(p, k)
    decreases |row|
  {
    if |row| > 0 {
      CountUniformRow(row[..|row| - 1], p, k);
    }
  }

  lemma {:induction false} RowCountPut(row: seq<Piece>, i: int, p: Piece, k: Class)
    requires 0 <= i < |row|
    ensures CountRow(row[i := p], k) + Ind(row[i], k) == CountRow(row, k) + Ind(p, k)
    decreases |row|
  {
    var n := |row| - 1;
    if i == n {
      assert row[i := p][..n] == row[..n];
    } else {
      assert row[i := p][..n] == row[..n][i := p];
      RowCountPut(row[..n], i, p, k);
    }
  }

  lemma {:induction false} BoardCountPut(b: seq<seq<Piece>>, r: int, i: int, p: Piece, k: Class)
    requires 0 <= r < |b| && 0 <= i < |b[r]|
    ensures Count(b[r := b[r][i := p]], k) + Ind(b[r][i], k) == Count(b, k) + Ind(p, k)
    decreases |b|
  {
    var n := |b| - 1;
    RowCountPut(b[r], i, p, k);
    if r == n {
      assert b[r := b[r][i := p]][..n] == b[..n];
    } else {
      assert b[r := b[r][i := p]][..n] == b[..n][r := b[r][i := p]];
      BoardCountPut(b[..n], r, i, p, k);
    }
  }

  /** Overwriting one square moves each count by exactly what left and what
      arrived there. */
  lemma CountPut(b: seq<seq<Piece>>, c: Cell, p: Piece, k: Class)
    requires IsGrid(b) && OnBoard(c)
    ensures Count(Put(b, c, p), k) + Ind(At(b, c), k) == Count(b, k) + Ind(p, k)
  {
    BoardCountPut(b, c.row, c.col, p, k);
  }

  /** checkGameOver: White is checked first, so Black wins when White has
      no piece left; White wins when White still has a piece and Black has
      none; otherwise the game goes on. */
  function GameOver(b: seq<seq<Piece>>): (r: Outcome)
    requires IsGrid(b)
    ensures r == Winner(Black) <==> NoneLeft(b, White)
    ensures r == Winner(White) <==> !NoneLeft(b, White) && NoneLeft(b, Black)
    ensures r == Undetermined <==> !NoneLeft(b, White) && !NoneLeft(b, Black)
  {
    CountZeroIffNoneLeft(b, White);
    CountZeroIffNoneLeft(b, Black);
    var counts := Tally(b);
    if counts.0 == 0 then Winner(Black)
    else if counts.1 == 0 then Winner(White)
    else Undetermined
  }

  /** getPieceCounts as written: a row-by-row, column-by-column scan that
      counts white men and kings as White and every other occupied square
      as Black. */
  method PieceCounts(b: seq<seq<Piece>>) returns (white: nat, black: nat)
    requires IsGrid(b)
    ensures white == Count(b, Side(White))
    ensures black == Count(b, Side(Black))
  {
    white, black := 0, 0;
    var i := 0;
    while i < Rows
      invariant 0 <= i <= Rows
      invariant white == Count(b[..i], Side(White))
      invariant black == Count(b[..i], Side(Black))
    {
      var j := 0;
      while j < Cols
        invariant 0 <= j <= Cols
        invariant white == Count(b[..i], Side(White)) + CountRow(b[i][..j], Side(White))
        invariant black == Count(b[..i], Side(Black)) + CountRow(b[i][..j], Side(Black))
      {
        assert b[i][..j + 1][..j] == b[i][..j];
        if b[i][j] == WhiteMan || b[i][j] == WhiteKing {
          white := white + 1;
        } else if b[i][j] != Empty {
          black := black + 1;
        }
        j := j + 1;
      }
      assert b[i][..Cols] == b[i];
      assert b[..i + 1][..i] == b[..i];
      i := i + 1;
    }
    assert b[..Rows] == b;
  }
}

=== FILE: game.dfy ===
/** The game state and the operations the click handler drives. */
module Game {
  import opened Options
  import opened Grid
  import opened Pieces
  import opened Census
  import opened Moves
  import opened Capture

  /** selectedIndex: the selected square and the piece recorded on it. */
  datatype Selection = Selection(cell: Cell, kind: Piece)

  /** The engine's global state: board, possibleMoves, turn, selectedIndex
      (None while it is still the empty list) and possibleJumps. */
  datatype Game = Game(board: seq<seq<Piece>>, marks: seq<seq<Mark>>, turn: Player,
                       selected: Option<Selection>, jumps: seq<Cell>)

  /** What a click did: the new state and, after a move, the game-over verdict. */
  datatype Reply = Reply(game: Game, outcome: Option<Outcome>)

  /** Both grids are 8x4 and every recorded cell lies on the board. */
  predicate WellFormed(g: Game) {
    && IsGrid(g.board) && IsGrid(g.marks)
    && (g.selected.Some? ==> OnBoard(g.selected.value.cell))
    && forall k :: 0 <= k < |g.jumps| ==> OnBoard(g.jumps[k])
  }

  /** No square is highlighted or marked. */
  ghost predicate Quiet(m: seq<seq<Mark>>)
    requires IsGrid(m)
  {
    forall c :: OnBoard(c) ==> At(m, c) == Unset
  }

  /** The piece the starting layout puts on every square of a row. */
  function StartPiece(row: int): Piece {
    if row < 3 then WhiteMan else if row < 5 then Empty else BlackMan
  }

  /** The starting layout: three rows of white men, two empty rows, three
      rows of black men. */
  function StartBoard(): (b: seq<seq<Piece>>)
    ensures IsGrid(b)
    ensures forall c :: OnBoard(c) ==>
      At(b, c) == StartPiece(c.row)
  {
    [ [WhiteMan, WhiteMan, WhiteMan, WhiteMan],
      [WhiteMan, WhiteMan, WhiteMan, WhiteMan],
      [WhiteMan, WhiteMan, WhiteMan, WhiteMan],
      [Empty, Empty, Empty, Empty],
      [Empty, Empty, Empty, Empty],
      [BlackMan, BlackMan, BlackMan, BlackMan],
      [BlackMan, BlackMan, BlackMan, BlackMan],
      [BlackMan, BlackMan, BlackMan, BlackMan] ]
  }

  /** The pieces in the first n rows of any board laid out by StartPiece. */
  lemma {:induction false} StartRowsCount(b: seq<seq<Piece>>, n: nat)
    requires IsGrid(b) && n <= Rows
    requires forall c :: OnBoard(c) ==> At(b, c) == StartPiece(c.row)
    ensures Count(b[..n], Side(White)) == 4 * (if n < 3 then n else 3)
    ensures Count(b[..n], Side(Black)) == 4 * (if n < 5 then 0 else n - 5)
  {
    if n > 0 {
      StartRowsCount(b, n - 1);
      assert b[..n][..n - 1] == b[..n - 1];
      var row := b[n - 1];
      forall i | 0 <= i < |row|
        ensures row[i] == StartPiece(n - 1)
      {
        assert At(b, Cell(n - 1, i)) == StartPiece(n - 1);
      }
      CountUniformRow(row, StartPiece(n - 1), Side(White));
      CountUniformRow(row, StartPiece(n - 1), Side(Black));
    }
  }

  /** The starting layout has twelve pieces a side. */
  lemma StartCensus()
    ensures Count(StartBoard(), Side(White)) == 12
    ensures Count(StartBoard(), Side(Black)) == 12
  {
    var b := StartBoard();
    StartRowsCount(b, Rows);
    assert b[..Rows] == b;
  }

  /** The state the script starts in (the global initialisers): exactly
      the state a reset produces, with nothing selected and no capture
      candidates recorded. */
  function Initial(): (g: Game)
    ensures WellFormed(g)
    ensures NewGame(g) == g
    ensures g.selected == None && g.jumps == []
  {
    Game(StartBoard(), Fill(Unset), White, None, [])
  }

  /** newGame: the starting layout, no highlights, White to move. The
      selection and the capture candidates are left as they were. */
  function NewGame(g: Game): (r: Game)
    requires WellFormed(g)
    ensures WellFormed(r)
    ensures forall c :: OnBoard(c) ==>
      At(r.board, c) == (if c.row < 3 then WhiteMan else if c.row < 5 then Empty else BlackMan)
    ensures Quiet(r.marks) && r.turn == White
    ensures Tally(r.board) == (12, 12) && GameOver(r.board) == Undetermined
    ensures r.selected == g.selected && r.jumps == g.jumps
  {
    StartCensus();
    g.(board := StartBoard(), marks := Fill(Unset), turn := White)
  }

  /** selectedValidPiece: record the square and its piece, and replace the
      highlights and capture candidates by those of the new selection. The
      board and the turn are not touched. */
  function Select(g: Game, c: Cell): (r: Game)
    requires WellFormed(g) && OnBoard(c)
    ensures WellFormed(r)
    ensures r.board == g.board && r.turn == g.turn
    ensures r.selected == Some(Selection(c, At(g.board, c)))
    ensures forall e :: OnBoard(e) ==>
      (At(r.marks, e) == Hilight <==> e == c || LegalDestination(g.board, g.turn, c, e))
    ensures forall e :: OnBoard(e) ==> At(r.marks, e) != Captured
    ensures forall x :: x in r.jumps ==>
      && At(g.board, x) != Empty && !Owns(g.turn, At(g.board, x))
      && Abs(x.row - c.row) == 1 && Abs(File(x) - File(c)) == 1
    ensures forall x, e, d ::
      ((d == RowStep(g.turn) || (IsKing(g.board, g.turn, c) && d == -RowStep(g.turn)))
       && JumpTo(g.board, g.turn, c, x, e, d))
      ==> x in r.jumps
  {
    SelectionHighlights(g.board, g.turn, c);
    SelectionJumpsAdjacent(g.board, g.turn, c);
    Game(g.board, SelectionMarks(g.board, g.turn, c), g.turn,
         Some(Selection(c, At(g.board, c))), SelectionJumps(g.board, g.turn, c))
  }

  /** selectedValidMove, in the order of checkers.js: move the recorded piece,
      mark the first capture candidate that passes, crown back-row men,
      sweep marked squares, pass the turn, clear the highlights, and report
      the game-over verdict. */
  function Commit(g: Game, dest: Cell): (r: Reply)
    requires WellFormed(g) && g.selected.Some? && OnBoard(dest)
    ensures WellFormed(r.game)
    ensures r.game.turn == Switch(g.turn) && Quiet(r.game.marks)
    ensures r.outcome == Some(GameOver(r.game.board))
    ensures dest != g.selected.value.cell ==> At(r.game.board, g.selected.value.cell) == Empty
    ensures r.game.selected == g.selected && r.game.jumps == g.jumps
  {
    var s := g.selected.value;
    var moved := Put(Put(g.board, s.cell, Empty), dest, s.kind);
    var marked := MarkCaptured(moved, g.marks, g.jumps, dest);
    var crowned := Promote(moved);
    var swept := Sweep(crowned, marked);
    Reply(Game(swept, Fill(Unset), Switch(g.turn), g.selected, g.jumps), Some(GameOver(swept)))
  }

  /** The dispatch in getSelectedSquare for a click on cell c: a piece of
      the side to move is (re)selected, and this is checked before the
      highlight; a highlighted square is moved to; anything else is
      ignored. A click outside the board matches no square. */
  function Click(g: Game, c: Cell): (r: Reply)
    requires WellFormed(g)
    ensures WellFormed(r.game)
    ensures OnBoard(c) && Owns(g.turn, At(g.board, c)) ==>
      && r.game.board == g.board && r.game.turn == g.turn && r.outcome == None
      && r.game.selected == Some(Selection(c, At(g.board, c)))
    ensures OnBoard(c) && !Owns(g.turn, At(g.board, c)) && At(g.marks, c) == Hilight && g.selected.Some? ==>
      r.game.turn == Switch(g.turn) && Quiet(r.game.marks) && r.outcome.Some?
    ensures !OnBoard(c) || (!Owns(g.turn, At(g.board, c)) && At(g.marks, c) != Hilight) ==>
      r == Reply(g, None)
    ensures OnBoard(c) && Owns(g.turn, At(g.board, c)) ==> r == Reply(Select(g, c), None)
    ensures OnBoard(c) && !Owns(g.turn, At(g.board, c)) && At(g.marks, c) == Hilight && g.selected.Some? ==>
      r == Commit(g, c)
  {
    if !OnBoard(c) then Reply(g, None)
    else if Owns(g.turn, At(g.board, c)) then Reply(Select(g, c), None)
    else if At(g.marks, c) == Hilight then
      // With nothing selected, selectedIndex is empty: the first write of
      // selectedValidMove assigns into undefined and throws before any state
      // changes.
      if g.selected.Some? then Commit(g, c) else Reply(g, None)
    else Reply(g, None)
  }
}

=== FILE: grid.dfy ===
/** The packed grid of the 32 playable squares: 8 rows of 4. The board and the
    highlight layer are both stored this way. */
module Grid {

  const Rows := 8
  const Cols := 4

  /** A (row, column) address in the packed grid; only cells with OnBoard
      hold data. */
  datatype Cell = Cell(row: int, col: int)

  predicate OnBoard(c: Cell) {
    0 <= c.row < Rows && 0 <= c.col < Cols
  }

  predicate IsGrid<T>(g: seq<seq<T>>) {
    |g| == Rows && forall r :: 0 <= r < Rows ==> |g[r]| == Cols
  }

  function At<T>(g: seq<seq<T>>, c: Cell): T
    requires IsGrid(g) && OnBoard(c)
  {
    g[c.row][c.col]
  }

  /** The grid with one cell overwritten and every other cell kept. */
  function Put<T>(g: seq<seq<T>>, c: Cell, v: T): (r: seq<seq<T>>)
    requires IsGrid(g) && OnBoard(c)
    ensures IsGrid(r)
    ensures At(r, c) == v
    ensures forall e :: OnBoard(e) && e != c ==> At(r, e) == At(g, e)
  {
    g[c.row := g[c.row][c.col := v]]
  }

  /** A grid holding the same value in every cell. */
  function Fill<T>(v: T): (r: seq<seq<T>>)
    ensures IsGrid(r)
    ensures forall c :: OnBoard(c) ==> At(r, c) == v
  {
    seq(Rows, _ => seq(Cols, _ => v))
  }

  /** Two grids that agree on every cell are the same grid. */
  lemma Extensionality<T>(g: seq<seq<T>>, h: seq<seq<T>>)
    requires IsGrid(g) && IsGrid(h)
    requires forall c :: OnBoard(c) ==> At(g, c) == At(h, c)
    ensures g == h
  {
    forall r | 0 <= r < Rows
      ensures g[r] == h[r]
    {
      forall k | 0 <= k < Cols
        ensures g[r][k] == h[r][k]
      {
        assert At(g, Cell(r, k)) == At(h, Cell(r, k));
      }
    }
  }
}

=== FILE: moves.dfy ===
/** The move finder: what selecting a piece highlights and which opposing
    pieces it records as capturable. */
module Moves {
  import opened Options
  import opened Grid
  import opened Pieces

  function Abs(x: int): nat {
    if x < 0 then -x else x
  }

  /** iOffset: the row step by which a man of the player advances. Men walk
      toward the row on which they are crowned. */
  function RowStep(pl: Player): (d: int)
    ensures d == 1 || d == -1
    ensures CrownRow(pl) == (if d == 1 then Rows - 1 else 0)
  {
    if pl == Black then -1 else 1
  }

  /** jOffset: even rows are drawn starting on the first file and odd rows on
      the second, so the column of a diagonal neighbour shifts by +1 from an
      even row and by -1 from an odd row. */
  function ColumnShift(row: int): (j: int)
    ensures j == 1 || j == -1
  {
    if row % 2 == 0 then 1 else -1
  }

  /** Consecutive rows shift in opposite directions. */
  lemma ColumnShiftAlternates(row: int)
    ensures ColumnShift(row + 1) == -ColumnShift(row)
  { }

  /** The file (0..7, left to right) of a cell on the full 8x8 board. */
  function File(c: Cell): int {
    2 * c.col + c.row % 2
  }

  /** Every packed cell is a playable square of the 8x8 board: its file is
      in range and has the parity of its row. */
  lemma FileParity(c: Cell)
    requires OnBoard(c)
    ensures 0 <= File(c) < 2 * Cols && (c.row + File(c)) % 2 == 0
  {
  }

  /** Within a row, the file determines the cell. */
  lemma FileDeterminesCell(c: Cell, e: Cell)
    requires c.row == e.row && File(c) == File(e)
    ensures c == e
  {
  }

  /** One of the directions a selection probes: a row step and which of the
      two column candidates (the "left" one is probed first). */
  datatype Dir = Dir(dr: int, left: bool)

  /** The diagonal neighbour in a direction: (i+d, j-J) or (i+d, j). */
  function Adjacent(o: Cell, dir: Dir): Cell {
    Cell(o.row + dir.dr, if dir.left then o.col - ColumnShift(o.row) else o.col)
  }

  /** The square a jump in a direction lands on: (i+2d, j-J) or (i+2d, j+J). */
  function Landing(o: Cell, dir: Dir): Cell {
    Cell(o.row + 2 * dir.dr,
         if dir.left then o.col - ColumnShift(o.row) else o.col + ColumnShift(o.row))
  }

  /** The packed offsets are the true diagonals of the 8x8 board: the
      neighbour is one file away, the two candidates lie on opposite sides,
      and the landing continues the same diagonal one more square. */
  lemma DiagonalGeometry(o: Cell, dir: Dir)
    requires dir.dr == 1 || dir.dr == -1
    ensures Abs(File(Adjacent(o, dir)) - File(o)) == 1
    ensures File(Landing(o, dir)) - File(o) == 2 * (File(Adjacent(o, dir)) - File(o))
    ensures File(Adjacent(o, Dir(dir.dr, true))) + File(Adjacent(o, Dir(dir.dr, false))) == 2 * File(o)
  {
    if o.row % 2 == 0 {
      assert (o.row + dir.dr) % 2 == 1;
      assert (o.row + 2 * dir.dr) % 2 == 0;
    } else {
      assert (o.row + dir.dr) % 2 == 0;
      assert (o.row + 2 * dir.dr) % 2 == 1;
    }
  }

  /** What one probe finds. */
  datatype Probe = NoMove | Step(to: Cell) | Jump(over: Cell, to: Cell)

  function Target(p: Probe): Option<Cell> {
    match p
    case NoMove => None
    case Step(t) => Some(t)
    case Jump(_, t) => Some(t)
  }

  /** Every cell a probe reports lies on the board. */
  predicate Fits(p: Probe) {
    && (p.Step? ==> OnBoard(p.to))
    && (p.Jump? ==> OnBoard(p.over) && OnBoard(p.to))
  }

  /** setPossibleMoves with explicit bounds checks: an empty neighbour is a
      step target; an occupied neighbour not of the mover's pair, with an
      empty landing beyond it, is a jump. A direction that leaves the board
      yields nothing. */
  function ProbeDirection(b: seq<seq<Piece>>, pl: Player, o: Cell, dir: Dir): (p: Probe)
    requires IsGrid(b) && OnBoard(o)
    ensures Fits(p)
    ensures !OnBoard(Adjacent(o, dir)) ==> p == NoMove
    ensures !OnBoard(Landing(o, dir)) ==> !p.Jump?
  {
    var adj := Adjacent(o, dir);
    var land := Landing(o, dir);
    if !OnBoard(adj) then NoMove
    else if At(b, adj) == Empty then Step(adj)
    else if OnBoard(land) && !Owns(pl, At(b, adj)) && At(b, land) == Empty then Jump(adj, land)
    else NoMove
  }

  /** Reading board[r][c] where the row exists: a missing column reads as
      undefined (None). */
  function ReadCell(b: seq<seq<Piece>>, r: int, c: int): Option<Piece>
    requires IsGrid(b) && 0 <= r < Rows
  {
    if 0 <= c < Cols then Some(b[r][c]) else None
  }

  /** setPossibleMoves as written, with its own off-board handling: a
      neighbour row outside the board makes the first read throw, and the
      catch discards the probe; a column outside the board reads undefined,
      which equals neither an empty square nor a piece code. */
  function SetPossibleMoves(b: seq<seq<Piece>>, pl: Player, o: Cell,
                            iOffset: int, jOffset: int, jumpLeft: bool): (p: Probe)
    requires IsGrid(b) && OnBoard(o)
    ensures Fits(p)
    ensures p.Step? ==> p.to.row == o.row + iOffset && At(b, p.to) == Empty
    ensures p.Jump? ==> && p.over.row == o.row + iOffset && p.to.row == o.row + 2 * iOffset
                        && At(b, p.over) != Empty && !Owns(pl, At(b, p.over))
                        && At(b, p.to) == Empty
  {
    var i2 := o.row + iOffset;
    var j2 := if jumpLeft then o.col + jOffset else o.col;
    var iJump := o.row + 2 * iOffset;
    var jumpInbounds := 0 <= iJump <= 7;
    if !(0 <= i2 < Rows) then NoMove
    else if ReadCell(b, i2, j2) == Some(Empty) then Step(Cell(i2, j2))
    else if && jumpInbounds
            && ReadCell(b, i2, j2) != Some(ManOf(pl))
            && ReadCell(b, i2, j2) != Some(KingOf(pl))
            && ReadCell(b, iJump, o.col + jOffset) == Some(Empty)
    then Jump(Cell(i2, j2), Cell(iJump, o.col + jOffset))
    else NoMove
  }

  /** The exception- and undefined-based probe as written finds exactly what
      the bounds-checked probe finds, for both column candidates. */
  lemma BoundsChecksAgree(b: seq<seq<Piece>>, pl: Player, o: Cell, dir: Dir)
    requires IsGrid(b) && OnBoard(o) && (dir.dr == 1 || dir.dr == -1)
    ensures SetPossibleMoves(b, pl, o, dir.dr,
                             if dir.left then -ColumnShift(o.row) else ColumnShift(o.row),
                             dir.left)
            == ProbeDirection(b, pl, o, dir)
  {
  }

  /** The probes checkPossibleMoves makes, in call order: a king first
      probes backwards, then every piece probes forwards; in each row step
      the left candidate comes before the right one. */
  function Directions(pl: Player, king: bool): (ds: seq<Dir>)
    ensures forall k :: 0 <= k < |ds| ==>
      ds[k].dr == RowStep(pl) || (king && ds[k].dr == -RowStep(pl))
    ensures forall i, k :: 0 <= i < k < |ds| ==>
      ds[i].dr != ds[k].dr || (ds[i].left && !ds[k].left)
    ensures Dir(RowStep(pl), true) in ds && Dir(RowStep(pl), false) in ds
    ensures king ==> Dir(-RowStep(pl), true) in ds && Dir(-RowStep(pl), false) in ds
    ensures |ds| == (if king then 4 else 2)
    ensures king ==> ds[0].dr == -RowStep(pl) && ds[1].dr == -RowStep(pl)
  {
    var f := RowStep(pl);
    (if king then [Dir(-f, true), Dir(-f, false)] else []) + [Dir(f, true), Dir(f, false)]
  }

  /** A selected piece probes like a king when it is the king of the side
      to move (the second code of the turn pair): a piece the player owns
      that is not the player's man. */
  predicate IsKing(b: seq<seq<Piece>>, pl: Player, o: Cell): (r: bool)
    requires IsGrid(b) && OnBoard(o)
    ensures r <==> Owns(pl, At(b, o)) && At(b, o) != ManOf(pl)
  {
    At(b, o) == KingOf(pl)
  }

  function Probes(b: seq<seq<Piece>>, pl: Player, o: Cell): (ps: seq<Probe>)
    requires IsGrid(b) && OnBoard(o)
    ensures |ps| == |Directions(pl, IsKing(b, pl, o))|
    ensures forall k :: 0 <= k < |ps| ==>
      ps[k] == ProbeDirection(b, pl, o, Directions(pl, IsKing(b, pl, o))[k])
  {
    var ds := Directions(pl, IsKing(b, pl, o));
    seq(|ds|, k requires 0 <= k < |ds| => ProbeDirection(b, pl, o, ds[k]))
  }

  function Highlight(m: seq<seq<Mark>>, p: Probe): seq<seq<Mark>>
    requires IsGrid(m) && Fits(p)
  {
    match p
    case NoMove => m
    case Step(t) => Put(m, t, Hilight)
    case Jump(_, t) => Put(m, t, Hilight)
  }

  /** The highlight writes of a sequence of probes: a cell ends highlighted
      when it was already, or some probe reported it as a target; every
      other cell is left alone. */
  function HighlightAll(m: seq<seq<Mark>>, ps: seq<Probe>): (r: seq<seq<Mark>>)
    requires IsGrid(m) && forall k {:trigger ps[k]} :: 0 <= k < |ps| ==> Fits(ps[k])
    ensures IsGrid(r)
    ensures forall c :: OnBoard(c) ==>
      (At(r, c) == Hilight <==>
        At(m, c) == Hilight || exists k :: 0 <= k < |ps| && Target(ps[k]) == Some(c))
    ensures forall c :: OnBoard(c) && At(r, c) != Hilight ==> At(r, c) == At(m, c)
    decreases |ps|
  {
    if |ps| == 0 then m
    else
      var rest := HighlightAll(Highlight(m, ps[0]), ps[1..]);
      assert forall k :: 1 <= k < |ps| ==> ps[1..][k - 1] == ps[k];
      rest
  }

  /** The pushes onto possibleJumps: the jumped-over cell of every jump
      probe, in probe order. */
  function Overs(ps: seq<Probe>): (r: seq<Cell>)
    ensures |r| <= |ps|
    ensures forall x :: x in r <==> exists k :: 0 <= k < |ps| && ps[k].Jump? && ps[k].over == x
    ensures (forall k {:trigger ps[k]} :: 0 <= k < |ps| ==> Fits(ps[k])) ==> forall i :: 0 <= i < |r| ==> OnBoard(r[i])
    decreases |ps|
  {
    if |ps| == 0 then []
    else
      var rest := Overs(ps[1..]);
      assert forall k :: 1 <= k < |ps| ==> ps[1..][k - 1] == ps[k];
      (if ps[0].Jump? then [ps[0].over] else []) + rest
  }

  /** The highlight layer a selection leaves: the earlier layer is reset,
      the origin is highlighted, and every other square is either
      highlighted or unset; nothing is marked captured. */
  function SelectionMarks(b: seq<seq<Piece>>, pl: Player, o: Cell): (m: seq<seq<Mark>>)
    requires IsGrid(b) && OnBoard(o)
    ensures IsGrid(m)
    ensures At(m, o) == Hilight
    ensures forall c :: OnBoard(c) ==> At(m, c) == Hilight || At(m, c) == Unset
  {
    HighlightAll(Put(Fill(Unset), o, Hilight), Probes(b, pl, o))
  }

  /** The capture candidates a selection records: at most one per probe,
      so at most four, and all on the board. */
  function SelectionJumps(b: seq<seq<Piece>>, pl: Player, o: Cell): (js: seq<Cell>)
    requires IsGrid(b) && OnBoard(o)
    ensures |js| <= 4
    ensures forall i :: 0 <= i < |js| ==> OnBoard(js[i])
  {
    Overs(Probes(b, pl, o))
  }

  // Reference rule, stated on the 8x8 board independently of the packed offsets.

  /** A simple move: one row in direction d, one file sideways, onto an empty square. */
  ghost predicate StepTo(b: seq<seq<Piece>>, o: Cell, c: Cell, d: int)
    requires IsGrid(b)
  {
    OnBoard(c) && c.row == o.row + d && Abs(File(c) - File(o)) == 1 && At(b, c) == Empty
  }

  /** A capture: over a diagonal neighbour in direction d holding a piece that
      is not the mover's, onto the empty square straight beyond it. */
  ghost predicate JumpTo(b: seq<seq<Piece>>, pl: Player, o: Cell, over: Cell, c: Cell, d: int)
    requires IsGrid(b)
  {
    && OnBoard(over) && OnBoard(c)
    && over.row == o.row + d && c.row == o.row + 2 * d
    && Abs(File(over) - File(o)) == 1
    && File(c) - File(o) == 2 * (File(over) - File(o))
    && At(b, over) != Empty && !Owns(pl, At(b, over))
    && At(b, c) == Empty
  }

  ghost predicate Toward(b: seq<seq<Piece>>, pl: Player, o: Cell, c: Cell, d: int)
    requires IsGrid(b)
  {
    StepTo(b, o, c, d) || exists over :: JumpTo(b, pl, o, over, c, d)
  }

  /** Where the piece on o may go: forwards for every piece, backwards too
      for a king of the side to move. */
  ghost predicate LegalDestination(b: seq<seq<Piece>>, pl: Player, o: Cell, c: Cell)
    requires IsGrid(b) && OnBoard(o)
  {
    Toward(b, pl, o, c, RowStep(pl)) || (IsKing(b, pl, o) && Toward(b, pl, o, c, -RowStep(pl)))
  }

  /** Whatever a probe reports is a legal destination in its row step. */
  lemma ProbeSound(b: seq<seq<Piece>>, pl: Player, o: Cell, dir: Dir, c: Cell)
    requires IsGrid(b) && OnBoard(o) && (dir.dr == 1 || dir.dr == -1)
    requires Target(ProbeDirection(b, pl, o, dir)) == Some(c)
    ensures Toward(b, pl, o, c, dir.dr)
  {
    DiagonalGeometry(o, dir);
    var p := ProbeDirection(b, pl, o, dir);
    if p.Jump? {
      assert JumpTo(b, pl, o, p.over, c, dir.dr);
    }
  }

  /** A simple move in row step d is reported by the left or the right
      probe of that step. */
  lemma StepFound(b: seq<seq<Piece>>, pl: Player, o: Cell, d: int, c: Cell)
    requires IsGrid(b) && OnBoard(o) && (d == 1 || d == -1)
    requires StepTo(b, o, c, d)
    ensures Target(ProbeDirection(b, pl, o, Dir(d, true))) == Some(c)
         || Target(ProbeDirection(b, pl, o, Dir(d, false))) == Some(c)
  {
    var L, R := Dir(d, true), Dir(d, false);
    DiagonalGeometry(o, L);
    if File(c) == File(Adjacent(o, L)) {
      FileDeterminesCell(c, Adjacent(o, L));
    } else {
      FileDeterminesCell(c, Adjacent(o, R));
    }
  }

  /** A capture in row step d is reported by the probe whose neighbour is
      the jumped piece. */
  lemma JumpFound(b: seq<seq<Piece>>, pl: Player, o: Cell, over: Cell, d: int, c: Cell)
    requires IsGrid(b) && OnBoard(o) && (d == 1 || d == -1)
    requires JumpTo(b, pl, o, over, c, d)
    ensures Target(ProbeDirection(b, pl, o, Dir(d, true))) == Some(c)
         || Target(ProbeDirection(b, pl, o, Dir(d, false))) == Some(c)
    ensures ProbeDirection(b, pl, o, Dir(d, true)) == Jump(over, c)
         || ProbeDirection(b, pl, o, Dir(d, false)) == Jump(over, c)
  {
    var L, R := Dir(d, true), Dir(d, false);
    DiagonalGeometry(o, L);
    var dir := if File(over) == File(Adjacent(o, L)) then L else R;
    DiagonalGeometry(o, dir);
    FileDeterminesCell(over, Adjacent(o, dir));
    FileDeterminesCell(c, Landing(o, dir));
    assert ProbeDirection(b, pl, o, dir) == Jump(over, c);
  }

  /** Every legal destination in a row step is reported by the left or the
      right probe of that step. */
  lemma ProbeComplete(b: seq<seq<Piece>>, pl: Player, o: Cell, d: int, c: Cell)
    requires IsGrid(b) && OnBoard(o) && (d == 1 || d == -1)
    requires Toward(b, pl, o, c, d)
    ensures Target(ProbeDirection(b, pl, o, Dir(d, true))) == Some(c)
         || Target(ProbeDirection(b, pl, o, Dir(d, false))) == Some(c)
  {
    if StepTo(b, o, c, d) {
      StepFound(b, pl, o, d, c);
    } else {
      var over :| JumpTo(b, pl, o, over, c, d);
      JumpFound(b, pl, o, over, d, c);
    }
  }

  /** A square a selection's probes report is a legal destination. */
  lemma ProbedIsLegal(b: seq<seq<Piece>>, pl: Player, o: Cell, k: int, c: Cell)
    requires IsGrid(b) && OnBoard(o)
    requires 0 <= k < |Probes(b, pl, o)| && Target(Probes(b, pl, o)[k]) == Some(c)
    ensures LegalDestination(b, pl, o, c)
  {
    var ds := Directions(pl, IsKing(b, pl, o));
    ProbeSound(b, pl, o, ds[k], c);
  }

  /** A legal destination in an allowed row step d is reported by one of
      the selection's probes. */
  lemma LegalIsProbed(b: seq<seq<Piece>>, pl: Player, o: Cell, d: int, c: Cell)
    requires IsGrid(b) && OnBoard(o)
    requires d == RowStep(pl) || (IsKing(b, pl, o) && d == -RowStep(pl))
    requires Toward(b, pl, o, c, d)
    ensures exists k :: 0 <= k < |Probes(b, pl, o)| && Target(Probes(b, pl, o)[k]) == Some(c)
  {
    var ps := Probes(b, pl, o);
    var ds := Directions(pl, IsKing(b, pl, o));
    ProbeComplete(b, pl, o, d, c);
    var i :| 0 <= i < |ds| && ds[i] == Dir(d, true);
    var j :| 0 <= j < |ds| && ds[j] == Dir(d, false);
    assert Target(ps[i]) == Some(c) || Target(ps[j]) == Some(c);
  }

  /** A square is reported by some probe of a selection exactly when it is
      a legal destination of the selected piece. */
  lemma ProbedIffLegal(b: seq<seq<Piece>>, pl: Player, o: Cell, c: Cell)
    requires IsGrid(b) && OnBoard(o)
    ensures (exists k :: 0 <= k < |Probes(b, pl, o)| && Target(Probes(b, pl, o)[k]) == Some(c))
            <==> LegalDestination(b, pl, o, c)
  {
    var ps := Probes(b, pl, o);
    var f := RowStep(pl);
    if exists k :: 0 <= k < |ps| && Target(ps[k]) == Some(c) {
      var k :| 0 <= k < |ps| && Target(ps[k]) == Some(c);
      ProbedIsLegal(b, pl, o, k, c);
    }
    if Toward(b, pl, o, c, f) {
      LegalIsProbed(b, pl, o, f, c);
    }
    if IsKing(b, pl, o) && Toward(b, pl, o, c, -f) {
      LegalIsProbed(b, pl, o, -f, c);
    }
  }

  /** Selection highlights exactly the origin and the legal destinations of
      the piece on it, and marks nothing as captured. */
  lemma SelectionHighlights(b: seq<seq<Piece>>, pl: Player, o: Cell)
    requires IsGrid(b) && OnBoard(o)
    ensures forall c :: OnBoard(c) ==>
      (At(SelectionMarks(b, pl, o), c) == Hilight <==> c == o || LegalDestination(b, pl, o, c))
    ensures forall c :: OnBoard(c) ==> At(SelectionMarks(b, pl, o), c) != Captured
  {
    forall c | OnBoard(c)
      ensures At(SelectionMarks(b, pl, o), c) == Hilight <==> c == o || LegalDestination(b, pl, o, c)
    {
      ProbedIffLegal(b, pl, o, c);
    }
  }

  /** A step probe reports a simple move and a jump probe a capture, both
      in the probe's row step. */
  lemma ProbeKinds(b: seq<seq<Piece>>, pl: Player, o: Cell, dir: Dir)
    requires IsGrid(b) && OnBoard(o) && (dir.dr == 1 || dir.dr == -1)
    ensures var p := ProbeDirection(b, pl, o, dir);
      && (p.Step? ==> StepTo(b, o, p.to, dir.dr))
      && (p.Jump? ==> JumpTo(b, pl, o, p.over, p.to, dir.dr))
  {
    DiagonalGeometry(o, dir);
  }

  /** A jump probe reports its direction's neighbour, holding a piece that is
      not the mover's, and its direction's landing. */
  lemma JumpProbeShape(b: seq<seq<Piece>>, pl: Player, o: Cell, dir: Dir)
    requires IsGrid(b) && OnBoard(o) && (dir.dr == 1 || dir.dr == -1)
    requires ProbeDirection(b, pl, o, dir).Jump?
    ensures var p := ProbeDirection(b, pl, o, dir);
      && p.over == Adjacent(o, dir) && p.to == Landing(o, dir)
      && OnBoard(p.over) && At(b, p.over) != Empty && !Owns(pl, At(b, p.over))
      && Abs(p.over.row - o.row) == 1 && Abs(File(p.over) - File(o)) == 1
  {
    DiagonalGeometry(o, dir);
  }

  /** The converse of the candidates' shape: the piece that any capture
      allowed to the selected piece goes over is recorded, since every jump
      probe pushes its neighbour. */
  lemma JumpRecorded(b: seq<seq<Piece>>, pl: Player, o: Cell, x: Cell, e: Cell, d: int)
    requires IsGrid(b) && OnBoard(o)
    requires d == RowStep(pl) || (IsKing(b, pl, o) && d == -RowStep(pl))
    requires JumpTo(b, pl, o, x, e, d)
    ensures x in SelectionJumps(b, pl, o)
  {
    JumpFound(b, pl, o, x, d, e);
    var left := ProbeDirection(b, pl, o, Dir(d, true)) == Jump(x, e);
    var ds := Directions(pl, IsKing(b, pl, o));
    var k := (if d == RowStep(pl) then |ds| - 2 else 0) + (if left then 0 else 1);
    assert ds[k] == Dir(d, left);
    assert Probes(b, pl, o)[k] == Jump(x, e);
  }

  /** Every recorded capture candidate is an opposing piece diagonally next
      to the origin, there are at most four of them, and every piece that an
      allowed capture goes over is among them. */
  lemma SelectionJumpsAdjacent(b: seq<seq<Piece>>, pl: Player, o: Cell)
    requires IsGrid(b) && OnBoard(o)
    ensures |SelectionJumps(b, pl, o)| <= 4
    ensures forall x :: x in SelectionJumps(b, pl, o) ==>
      && OnBoard(x) && At(b, x) != Empty && !Owns(pl, At(b, x))
      && Abs(x.row - o.row) == 1 && Abs(File(x) - File(o)) == 1
    ensures forall x, e, d ::
      ((d == RowStep(pl) || (IsKing(b, pl, o) && d == -RowStep(pl))) && JumpTo(b, pl, o, x, e, d))
      ==> x in SelectionJumps(b, pl, o)
  {
    forall x, e, d | (d == RowStep(pl) || (IsKing(b, pl, o) && d == -RowStep(pl))) && JumpTo(b, pl, o, x, e, d)
      ensures x in SelectionJumps(b, pl, o)
    {
      JumpRecorded(b, pl, o, x, e, d);
    }
    var ps := Probes(b, pl, o);
    var ds := Directions(pl, IsKing(b, pl, o));
    forall x | x in SelectionJumps(b, pl, o)
      ensures && OnBoard(x) && At(b, x) != Empty && !Owns(pl, At(b, x))
              && Abs(x.row - o.row) == 1 && Abs(File(x) - File(o)) == 1
    {
      var k :| 0 <= k < |ps| && ps[k].Jump? && ps[k].over == x;
      JumpProbeShape(b, pl, o, ds[k]);
    }
  }
}

=== FILE: options.dfy ===
/** The optional-value wrapper used wherever the game may have nothing to report. */
module Options {

  datatype Option<+T> = None | Some(value: T)
}

=== FILE: pieces.dfy ===
/** The contents of one square: the five piece codes, the two players and
    the three states a square of the highlight layer can be in. */
module Pieces {

  /** What a playable square holds. */
  datatype Piece = Empty | WhiteMan | BlackMan | BlackKing | WhiteKing

  /** The side to move. The game stores it as a (man, king) pair of codes. */
  datatype Player = White | Black

  /** A square of the highlight layer: never written, a legal target (or
      the selected origin), or a captured piece waiting to be swept. */
  datatype Mark = Unset | Hilight | Captured

  /** The integer each piece is stored as (NO_PIECE .. WHITE_KING). */
  function Code(p: Piece): (n: int)
    ensures 0 <= n <= 4
    ensures n == 0 <==> p == Empty
  {
    match p
    case Empty => 0
    case WhiteMan => 1
    case BlackMan => 2
    case BlackKing => 3
    case WhiteKing => 4
  }

  /** The five codes are distinct, so comparing codes with === is the same
      as comparing pieces. */
  lemma CodeInjective(p: Piece, q: Piece)
    ensures Code(p) == Code(q) ==> p == q
  { }

  /** The integer each highlight state is stored as. A captured square is
      marked with the code of an empty square, which is why it can never be
      confused with a target or with an untouched square. */
  function MarkCode(m: Mark): (n: int)
    ensures n == Code(Empty) <==> m == Captured
    ensures n == -1 <==> m == Unset
  {
    match m
    case Unset => -1
    case Hilight => 5
    case Captured => 0
  }

  function ManOf(pl: Player): Piece {
    if pl == White then WhiteMan else BlackMan
  }

  function KingOf(pl: Player): Piece {
    if pl == White then WhiteKing else BlackKing
  }

  /** The ownership test against the turn pair: the piece is the player's man or king. */
  predicate Owns(pl: Player, p: Piece) {
    p == ManOf(pl) || p == KingOf(pl)
  }

  /** Passing the move on: the pair of the other colour. Every piece on the
      board belongs to exactly one of the two pairs. */
  function Switch(pl: Player): (r: Player)
    ensures r != pl
    ensures forall p: Piece :: Owns(r, p) <==> p != Empty && !Owns(pl, p)
  {
    if pl == White then Black else White
  }

  /** Passing the move twice gives it back. */
  lemma SwitchTwice(pl: Player)
    ensures Switch(Switch(pl)) == pl
  {
  }

  /** The row on which a man of the player is crowned. */
  function CrownRow(pl: Player): int {
    if pl == White then 7 else 0
  }

  /** What a piece becomes when it comes to rest on the given row: a man on
      its own crown row becomes the king of its colour, everything else
      stays as it is. */
  function Crown(p: Piece, row: int): (r: Piece)
    ensures forall pl: Player :: Owns(pl, r) <==> Owns(pl, p)
    ensures r == Empty <==> p == Empty
    ensures r != p <==> exists pl: Player :: p == ManOf(pl) && row == CrownRow(pl)
    ensures r != p ==> r == WhiteKing || r == BlackKing
  {
    if p == BlackMan && row == 0 then
      assert p == ManOf(Black) && row == CrownRow(Black);
      BlackKing
    else if p == WhiteMan && row == 7 then
      assert p == ManOf(White) && row == CrownRow(White);
      WhiteKing
    else p
  }
}

=== FILE: play.dfy ===
/** The invariant every state reachable by play keeps, and what a click does
    to such a state. */
module Play {
  import opened Options
  import opened Grid
  import opened Pieces
  import opened Census
  import opened Moves
  import opened Capture
  import opened Game

  /** A selection is pending: the recorded piece belongs to the side to move
      and still stands on its square, and the highlights and capture
      candidates are exactly those that selecting it produced. */
  ghost predicate Pending(g: Game)
    requires WellFormed(g)
  {
    && g.selected.Some?
    && var s := g.selected.value;
    && At(g.board, s.cell) == s.kind && Owns(g.turn, s.kind)
    && g.marks == SelectionMarks(g.board, g.turn, s.cell)
    && g.jumps == SelectionJumps(g.board, g.turn, s.cell)
  }

  /** What holds of every state play can reach: no man waits uncrowned on
      its crown row, and either nothing is highlighted or a selection is
      pending. */
  ghost predicate Reachable(g: Game) {
    && WellFormed(g) && Settled(g.board)
    && (Quiet(g.marks) || Pending(g))
  }

  lemma InitialReachable()
    ensures Reachable(Initial())
  {
  }

  lemma NewGameReachable(g: Game)
    requires WellFormed(g)
    ensures Reachable(NewGame(g))
  {
  }

  /** A highlighted square other than the origin of a pending selection is
      the target of one of its probes. */
  lemma PendingTarget(g: Game, c: Cell) returns (k: int)
    requires WellFormed(g) && Pending(g) && OnBoard(c)
    requires At(g.marks, c) == Hilight && c != g.selected.value.cell
    ensures var ps := Probes(g.board, g.turn, g.selected.value.cell);
      0 <= k < |ps| && Target(ps[k]) == Some(c)
  {
    var o := g.selected.value.cell;
    var ps := Probes(g.board, g.turn, o);
    var m0 := Put(Fill(Unset), o, Hilight);
    assert At(m0, c) != Hilight;
    k :| 0 <= k < |ps| && Target(ps[k]) == Some(c);
  }

  /** The board a commit to the target of the k-th probe leaves: the moved
      and possibly crowned piece, minus the jumped piece on a jump. */
  lemma CommitBoard(g: Game, c: Cell, k: int)
    requires WellFormed(g) && Pending(g) && Settled(g.board) && OnBoard(c)
    requires c != g.selected.value.cell
    requires var ps := Probes(g.board, g.turn, g.selected.value.cell);
      0 <= k < |ps| && Target(ps[k]) == Some(c)
    ensures var s := g.selected.value;
      var p := Probes(g.board, g.turn, s.cell)[k];
      var crowned := Put(Put(Put(g.board, s.cell, Empty), c, s.kind), c, Crown(s.kind, c.row));
      && Commit(g, c).game.board == (if p.Jump? then Put(crowned, p.over, Empty) else crowned)
      && Settled(crowned)
  {
    var b, pl := g.board, g.turn;
    var s := g.selected.value;
    var o := s.cell;
    var p := Probes(b, pl, o)[k];
    SelectionHighlights(b, pl, o);
    CaptureIsExact(b, pl, o, k, s.kind);
    PromoteAfterMove(b, o, c, s.kind);
    var moved := Put(Put(b, o, Empty), c, s.kind);
    var crowned := Put(moved, c, Crown(s.kind, c.row));
    if p.Step? {
      SweepNone(crowned, g.marks);
    } else {
      SweepSingle(crowned, Put(g.marks, p.over, Captured), p.over);
    }
  }

  /** On a reachable state, a click on a highlighted square without a
      piece of the side to move finds a pending selection and commits it. */
  lemma ClickCommits(g: Game, c: Cell)
    requires Reachable(g) && OnBoard(c)
    requires !Owns(g.turn, At(g.board, c)) && At(g.marks, c) == Hilight
    ensures Pending(g) && c != g.selected.value.cell
    ensures Click(g, c) == Commit(g, c)
  {
    assert !Quiet(g.marks);
  }

  lemma SettledAfterCapture(b: seq<seq<Piece>>, x: Cell)
    requires IsGrid(b) && Settled(b) && OnBoard(x)
    ensures Settled(Put(b, x, Empty))
  {
    var r := Put(b, x, Empty);
    forall k | 0 <= k < Cols
      ensures At(r, Cell(0, k)) != BlackMan && At(r, Cell(Rows - 1, k)) != WhiteMan
    {
      assert At(b, Cell(0, k)) != BlackMan && At(b, Cell(Rows - 1, k)) != WhiteMan;
    }
  }

  /** The board after the piece on o moved to c, was crowned there, and
      the piece on x (if any) was removed. */
  function AfterMove(b: seq<seq<Piece>>, o: Cell, c: Cell, kind: Piece, x: Option<Cell>): seq<seq<Piece>>
    requires IsGrid(b) && OnBoard(o) && OnBoard(c)
    requires x.Some? ==> OnBoard(x.value)
  {
    var crowned := Put(Put(Put(b, o, Empty), c, kind), c, Crown(kind, c.row));
    if x.Some? then Put(crowned, x.value, Empty) else crowned
  }

  /** Square by square: the origin and the removed square are empty, the
      destination holds the crowned piece, and every other square is as
      before. */
  lemma MoveCells(b: seq<seq<Piece>>, o: Cell, c: Cell, kind: Piece, x: Option<Cell>)
    requires IsGrid(b) && OnBoard(o) && OnBoard(c) && o != c
    requires x.Some? ==> OnBoard(x.value) && x.value != c
    ensures forall e :: OnBoard(e) ==>
      At(AfterMove(b, o, c, kind, x), e) ==
        (if e == o || Some(e) == x then Empty
         else if e == c then Crown(kind, c.row)
         else At(b, e))
  {
  }

  /** Moving a piece to an empty square and crowning it there keeps the
      count of every class; removing a piece afterwards lowers the count of
      its classes by one. */
  lemma MoveCount(b: seq<seq<Piece>>, o: Cell, c: Cell, kind: Piece, x: Option<Cell>, k: Class)
    requires IsGrid(b) && OnBoard(o) && OnBoard(c) && o != c
    requires At(b, o) == kind && At(b, c) == Empty
    requires x.Some? ==> OnBoard(x.value) && x.value != c && x.value != o
    ensures Count(AfterMove(b, o, c, kind, x), k) ==
      Count(b, k) - (if x.Some? then Ind(At(b, x.value), k) else 0)
  {
    var m1 := Put(b, o, Empty);
    var m2 := Put(m1, c, kind);
    var m3 := Put(m2, c, Crown(kind, c.row));
    CountPut(b, o, Empty, k);
    CountPut(m1, c, kind, k);
    CountPut(m2, c, Crown(kind, c.row), k);
    assert Ind(Crown(kind, c.row), k) == Ind(kind, k);
    if x.Some? {
      CountPut(m3, x.value, Empty, k);
    }
  }

  /** The move a commit to a highlighted square c performs: c is the
      target of the k-th probe of the pending selection and a legal
      destination of the selected piece, reached by a step (one row) or by
      a jump (two rows) over the captured piece. */
  lemma CommitMove(g: Game, c: Cell) returns (k: int, captured: Option<Cell>)
    requires Reachable(g) && Pending(g) && OnBoard(c)
    requires At(g.marks, c) == Hilight && c != g.selected.value.cell
    ensures var ps := Probes(g.board, g.turn, g.selected.value.cell);
      && 0 <= k < |ps| && Target(ps[k]) == Some(c)
      && captured == (if ps[k].Jump? then Some(ps[k].over) else None)
    ensures var o := g.selected.value.cell;
      && LegalDestination(g.board, g.turn, o, c) && At(g.board, c) == Empty
      && (captured.None? <==> Abs(c.row - o.row) == 1)
      && (captured.Some? ==> JumpTo(g.board, g.turn, o, captured.value, c, (c.row - o.row) / 2))
  {
    var b, pl := g.board, g.turn;
    var o := g.selected.value.cell;
    k := PendingTarget(g, c);
    var ds := Directions(pl, IsKing(b, pl, o));
    var p := Probes(b, pl, o)[k];
    ProbeKinds(b, pl, o, ds[k]);
    assert LegalDestination(b, pl, o, c) by {
      SelectionHighlights(b, pl, o);
    }
    if p.Step? {
      captured := None;
    } else {
      captured := Some(p.over);
      var d := ds[k].dr;
      assert c.row - o.row == 2 * d;
      assert (c.row - o.row) / 2 == d by {
        if d == 1 { assert 2 * d / 2 == 1; } else { assert 2 * d / 2 == -1; }
      }
      assert JumpTo(b, pl, o, p.over, c, d);
    }
  }

  /** A committing click on a reachable state performs the move CommitMove
      describes, and its board is AfterMove of it, with no man left waiting
      on its crown row. */
  lemma ClickBoard(g: Game, c: Cell) returns (captured: Option<Cell>)
    requires Reachable(g) && OnBoard(c)
    requires !Owns(g.turn, At(g.board, c)) && At(g.marks, c) == Hilight
    ensures Pending(g) && c != g.selected.value.cell
    ensures var o := g.selected.value.cell;
      && LegalDestination(g.board, g.turn, o, c) && At(g.board, c) == Empty
      && (captured.None? <==> Abs(c.row - o.row) == 1)
      && (captured.Some? ==> JumpTo(g.board, g.turn, o, captured.value, c, (c.row - o.row) / 2))
    ensures captured.Some? ==>
      OnBoard(captured.value) && captured.value != c && captured.value != g.selected.value.cell
    ensures var s := g.selected.value;
      && Click(g, c).game.board == AfterMove(g.board, s.cell, c, s.kind, captured)
      && Settled(AfterMove(g.board, s.cell, c, s.kind, captured))
  {
    ClickCommits(g, c);
    var s := g.selected.value;
    var k;
    k, captured := CommitMove(g, c);
    CommitBoard(g, c, k);
    if captured.Some? {
      var crowned := Put(Put(Put(g.board, s.cell, Empty), c, s.kind), c, Crown(s.kind, c.row));
      SettledAfterCapture(crowned, captured.value);
    }
  }

  /** Clicking a highlighted square that does not hold a piece of the side
      to move commits the pending selection. The destination is a legal
      destination of the selected piece; the origin is emptied; the
      destination receives the recorded piece, crowned if it is a man
      arriving on its crown row; on a jump (two rows) exactly the piece
      jumped over is removed, on a step (one row) nothing is; every other
      square is unchanged, and the new state is again reachable. */
  lemma ClickMove(g: Game, c: Cell) returns (captured: Option<Cell>)
    requires Reachable(g) && OnBoard(c)
    requires !Owns(g.turn, At(g.board, c)) && At(g.marks, c) == Hilight
    ensures g.selected.Some?
    ensures var o := g.selected.value.cell;
      && LegalDestination(g.board, g.turn, o, c) && At(g.board, c) == Empty
      && (captured.None? <==> Abs(c.row - o.row) == 1)
      && (captured.Some? ==> JumpTo(g.board, g.turn, o, captured.value, c, (c.row - o.row) / 2))
    ensures var o := g.selected.value.cell;
      var r := Click(g, c).game;
      forall e :: OnBoard(e) ==>
        At(r.board, e) == (if e == o || Some(e) == captured then Empty
                           else if e == c then Crown(g.selected.value.kind, c.row)
                           else At(g.board, e))
    ensures Reachable(Click(g, c).game)
  {
    captured := ClickBoard(g, c);
    var s := g.selected.value;
    MoveCells(g.board, s.cell, c, s.kind, captured);
  }

  /** A move keeps the mover's piece count and lowers the opponent's by one
      exactly when it is a jump; the number of occupied squares falls with
      it. */
  lemma ClickCensus(g: Game, c: Cell) returns (captured: Option<Cell>)
    requires Reachable(g) && OnBoard(c)
    requires !Owns(g.turn, At(g.board, c)) && At(g.marks, c) == Hilight
    ensures g.selected.Some?
    ensures captured.None? <==> Abs(c.row - g.selected.value.cell.row) == 1
    ensures var b, r := g.board, Click(g, c).game.board;
      && Count(r, Side(g.turn)) == Count(b, Side(g.turn))
      && Count(r, Side(Switch(g.turn))) == Count(b, Side(Switch(g.turn))) - (if captured.Some? then 1 else 0)
      && Count(r, Occupied) == Count(b, Occupied) - (if captured.Some? then 1 else 0)
  {
    captured := ClickBoard(g, c);
    var s := g.selected.value;
    var b, pl := g.board, g.turn;
    if captured.Some? {
      var x := captured.value;
      assert Owns(Switch(pl), At(b, x));
    }
    MoveCount(b, s.cell, c, s.kind, captured, Side(pl));
    MoveCount(b, s.cell, c, s.kind, captured, Side(Switch(pl)));
    MoveCount(b, s.cell, c, s.kind, captured, Occupied);
  }

  /** Every click keeps a reachable state reachable. */
  lemma ClickPreservesReachable(g: Game, c: Cell)
    requires Reachable(g)
    ensures Reachable(Click(g, c).game)
  {
    if OnBoard(c) && Owns(g.turn, At(g.board, c)) {
      var r := Select(g, c);
      assert Pending(r);
    } else if OnBoard(c) && At(g.marks, c) == Hilight {
      var _ := ClickMove(g, c);
    }
  }
}
